=== FILE: README.md ===
# owl image buffer and JPEG bridge, modelled in Dafny

This project models the core of the `owl` image library:

- the colour-space enumeration and its channel count (`src/core/Types.h`);
- the pixel buffer `owl::Image<BYTE>` (`src/core/Image.h`). It is a flat byte buffer of
  `rowSize * height` bytes. Each row holds `width * channels` pixel bytes and is padded
  to a multiple of 32 bits. The model covers its lifecycle: default state, `create`,
  `destroy`, the constructors and assignment. It also covers the pixel offset
  `row * rowSize + column * channels`, the only access path to pixel data;
- the file bridge `owl::ImageFile` (`src/core/ImageFile.cpp`): path classification,
  `load`/`save` dispatch, the colour-space mappings to and from the JPEG library, and
  the scanline loops that move row k to or from offset `k * rowSize`. It also tracks
  which resources (the file and the codec object) each exit path acquires and
  releases.

Modules, one per source file plus one for the library the bridge calls:

| file | module | models |
|---|---|---|
| `types.dfy` | `Types` | `BYTE`, `unsigned int` arithmetic, `ColorSpace::Type`, `calculateNumberOfChannels` |
| `images.dfy` | `Images` | `Image<BYTE>`: layout helpers, lifecycle, pixel access, rows, assignment |
| `libjpeg.dfy` | `Libjpeg` | the JPEG library as seen by the bridge, plus a resource state machine |
| `image_file.dfy` | `ImageFile` | `ImageFile`: classification, dispatch, colour mappings, load and save |

Modelling choices:

- Values replace objects. An `Image` is an immutable record, and every operation
  returns the new image. A copy is therefore independent of its source, and the
  source is never changed. The record's fields serve as the getters.
- `calculateRowSize` is modelled bit for bit in 32-bit unsigned arithmetic, and so is
  the allocation size `mRowSize * mHeight`. `& ~31` clears the low five bits;
  `>> 3` divides by 8. The lemmas about layout assume these products do not overflow
  (`Fits`). The copy of source data in `create` and the constructors is sized in `size_t`
  and does not wrap, so those calls with data require that `rowSize * height` does not
  overflow (`BufferFits`).
- The written `operator=` can leave an image whose buffer is longer than
  `rowSize * height`. Every reader of the buffer takes only the first
  `rowSize * height` bytes, so copy, assignment and save accept such images
  (`Images.Readable`), not only the states `create` and `destroy` produce (`Images.Valid`).
- The contents of `new BYTE[n]` are indeterminate. The oracle `alloc: nat -> Byte`
  stands for them. Whether `fopen` succeeds is the oracle boolean `opens`.
- The JPEG library is abstract. A decoded stream is a header (width, height,
  `J_COLOR_SPACE`) plus its scanlines. An encode is the encoder settings plus the
  scanlines it was handed. `Libjpeg.Transmit` is a codec that returns what it was given,
  which makes the encode/decode round trip stateable.
- Each load or save records the calls it makes on the file and the codec object as a
  trace of events. The machine `Libjpeg.Step` replays the trace. It accepts scanlines
  only in row order. `Releases(trace)` means the replay ends with the file closed and
  no codec object alive.

Behaviours of the code that are easy to miss:

- The default and destroyed states have colour space RGB with zero channels, not
  Unknown (`src/core/Image.h:211`, `src/core/Image.h:252`). Such an image is valid but
  not a consistent layout. Copy-constructing it gives 3 channels and 24 bits per pixel
  (`Images.CopyOfDefaultGainsChannels`).
- `save` of an image whose colour space is Unknown does open the output file with
  `"wb"` before refusing (`src/core/ImageFile.cpp:155`). That truncates the file.
  No scanlines are written.
- The four-argument constructor defaults its colour space to GRAYSCALE. The model
  always passes the colour space explicitly.

## Model

| member | source | states |
|---|---|---|
| `Types.NumberOfChannels` | src/core/Types.h:41-57 | total; the result is one of 0, 1, 3, 4; it is 0 exactly for Unknown; 1 exactly for grayscale; 4 exactly for RGBA |
| `Types.ChannelsIdentifyColorSpace` | src/core/Types.h:41-57 | two colour spaces have the same channel count if and only if they are equal |
| `Images.CalculateBpp` | src/core/Image.h:362-366 | bits per pixel are 8 per one-byte channel: a multiple of 8, at most 32, with bpp/8 the channel count |
| `Images.CalculateRowSize` | src/core/Image.h:368-372 | the row size is a multiple of 4 bytes even when the 32-bit arithmetic wraps |
| `Images.RowSizeIsPaddedBitLength` | src/core/Image.h:368-372 | without overflow the row size is 4*ceil(width*bpp/32): it holds width*bpp bits and is less than 32 bits longer |
| `Images.RowSizeIsLeast` | src/core/Image.h:368-372 | no smaller multiple of 4 bytes holds the row's bits |
| `Images.RowSizeCoversPixels` | src/core/Image.h:362-372 | for byte channels, width*channels <= rowSize < width*channels + 4 |
| `Images.RowSizeExamples` | src/core/Image.h:368-372 | four RGB pixels give 12 bytes; three RGB pixels give 12 (9 plus 3 padding); one grayscale pixel gives 4 |
| `Images.BufferSize` | src/core/Image.h:274-277 | without overflow the allocation is exactly rowSize*height bytes |
| `Images.Default` | src/core/Image.h:209-219 | the default image has no buffer and no pixels, yet is not a consistent layout (RGB with zero channels) |
| `Images.ValidIsReadable` | src/core/Image.h:338-360 | every state create and destroy produce has a buffer of exactly rowSize*height bytes, so it can be read |
| `Images.ReadableFitsIsAddressable` | src/core/Image.h:264-283 | every readable image without overflow, stale buffers included, holds height rows of rowSize bytes, each with room for width*channels pixel bytes and less than 4 bytes of padding |
| `Images.Destroy` | src/core/Image.h:249-262 | releases the buffer; all sizes become 0 and the colour space becomes RGB; the result is valid but not a consistent layout |
| `Images.DestroyIdempotent` | src/core/Image.h:249-262 | destroying twice equals destroying once, which equals the default-constructed image |
| `Images.Create` | src/core/Image.h:264-283 | sets the width, height and colour space; derives channels, bpp and row size from them; buffer length = BufferSize (rowSize*height without overflow); with source data, whose copy needs a buffer size that does not wrap, the buffer is its prefix |
| `Images.CreateDiscardsPrior` | src/core/Image.h:264-283 | the result of create does not depend on the prior state |
| `Images.RecreateFollowsNewDimensions` | src/core/Image.h:264-283 | create, destroy, create again: the size and stride are those of the second call |
| `Images.Construct` | src/core/Image.h:221-235 | the four-argument constructor equals create applied to any prior image |
| `Images.Copy` | src/core/Image.h:237-241 | the copy is a consistent image, its channels and bpp recomputed from the colour space, with the source's width, height, colour space and row size, holding the first rowSize*height bytes of its buffer (all of them for a valid source); a consistent source is copied exactly |
| `Images.CopyOfDefaultGainsChannels` | src/core/Image.h:237-241 | copying the default image gives an image with 3 channels, unlike its source |
| `Images.PixelSlotInRow` | src/core/Image.h:327-336 | for row < height and column < width, the pixel's slot lies in the buffer, inside its row's pixel bytes; it never reaches the padding or the next row |
| `Images.PixelSlotsDisjoint` | src/core/Image.h:327-336 | distinct in-bounds pixels have disjoint slots |
| `Images.ReadPixel` | src/core/Image.h:332-336 | reading a pixel yields exactly `channels` values |
| `Images.WritePixel` | src/core/Image.h:327-331 | after a write, reading the pixel back gives the written values; every other byte, padding included, and every field are unchanged |
| `Images.WritePixelLeavesOthers` | src/core/Image.h:327-336 | writing one pixel leaves every other pixel's values unchanged |
| `Images.PixelWithinRow` | src/core/Image.h:327-336 | a pixel's values are the channels bytes at column*channels within its row |
| `Images.WriteRow` | src/core/ImageFile.cpp:134-137 | copying a scanline to `image(k, 0)` makes row k equal the scanline; other rows, all padding, the bytes past the last row of a stale buffer and the buffer length are unchanged |
| `Images.AssignAsWritten` | src/core/Image.h:338-360 | as written: the buffer is never reallocated; it overruns exactly when the target's buffer is shorter than rowSize*height of the source; otherwise the target gets the source's fields and its first rowSize*height bytes, keeps its own later bytes and its buffer length, and stays readable |
| `Images.AssignAsWrittenKeepsStaleBuffer` | src/core/Image.h:348-357 | assigning a 1x1 grayscale image to a 2x2 RGB one leaves a 16-byte buffer where rowSize*height is 4: readable, but not a state create produces |
| `Images.AssignAsWrittenOverruns` | src/core/Image.h:348-357 | assigning a 1x1 grayscale image to a default image copies 4 bytes into an empty buffer |
| `Images.Assign` | src/core/Image.h:338-360 | when the test compares the target's current buffer size with the source's, assignment makes the target equal to a valid source, whatever the target was; from a source with a stale buffer it takes the fields and the first rowSize*height bytes |
| `ImageFile.CheckFileExtension` | src/core/ImageFile.cpp:45-53 | UNKNOWN if and only if the path is empty; JPEG for every other path, whatever its suffix |
| `ImageFile.CalculateRowSize` | src/core/ImageFile.cpp:55-58 | the bridge's row size is a multiple of 4 |
| `ImageFile.CalculateBpp` | src/core/ImageFile.cpp:60-63 | without overflow, bpp = channels * channelSize * 8 |
| `ImageFile.HelpersAgreeWithImage` | src/core/ImageFile.cpp:55-63 | the bridge's row size equals the image's for all inputs; its bpp with 1-byte channels equals the image's |
| `ImageFile.DecodeColorSpace` | src/core/ImageFile.cpp:96-126 | an accepted library colour space maps to a supported one whose channel count equals the library's bytes per pixel |
| `ImageFile.DecodeAcceptsExactly` | src/core/ImageFile.cpp:96-126 | load accepts exactly JCS_GRAYSCALE, JCS_RGB, JCS_EXT_RGB and JCS_EXT_RGBA |
| `ImageFile.EncodeColorSpace` | src/core/ImageFile.cpp:171-187 | every colour space except Unknown has a library counterpart, and decoding that counterpart gives the colour space back |
| `ImageFile.DecodeThenEncode` | src/core/ImageFile.cpp:171-187 | every colour space load accepts can be saved; save picks the same library value except for the JCS_EXT_RGB spelling |
| `ImageFile.ReadScanlines` | src/core/ImageFile.cpp:130-138 | the decode loop leaves row j holding scanline j for every j from k on; earlier rows, all padding and the bytes past the last row are unchanged |
| `ImageFile.LoadJpeg` | src/core/ImageFile.cpp:65-146 | fails exactly when the file does not open or the colour space is refused, and then the image is unchanged; on success the image has the header's size and mapped colour space, and its rows are the scanlines; a successful load opens, creates, reads the header, starts, transfers rows 0..height-1 in order, then finishes, destroys and closes; a refused colour space opens, starts, then finishes, destroys and closes; every path releases the file and the codec object |
| `ImageFile.Load` | src/core/ImageFile.cpp:17-29 | an empty path fails without touching the image or the codec; any other path is a JPEG load |
| `ImageFile.SaveJpegAsWritten` | src/core/ImageFile.cpp:148-215 | succeeds exactly when the file opens and the colour space is supported; the encoder then gets the image's size, channel count, the library colour space of the switch (JCS_RGB for RGB), the quality and its rows in order; the file is opened, the codec created, configured and started, rows 0..height-1 transferred in order, and then the codec finished and destroyed and the file closed; the Unknown refusal opens the file and creates the codec object, and leaves both so |
| `ImageFile.SaveJpegAsWrittenLeaks` | src/core/ImageFile.cpp:155-187 | saving a 2x2 image of Unknown colour space does not release its resources |
| `ImageFile.SaveJpeg` | src/core/ImageFile.cpp:148-215 | succeeds exactly when the file opens and the colour space is supported, handing the encoder the image's size, channel count, switched library colour space, quality and rows, with the same open-to-close sequence as the written save; the Unknown refusal opens, creates, destroys and closes; every path releases the file and the codec object |
| `ImageFile.SaveJpegAgreesOffRefusal` | src/core/ImageFile.cpp:171-187 | the corrected and the written save coincide except on the Unknown refusal |
| `ImageFile.Save` | src/core/ImageFile.cpp:31-43 | an empty path fails without opening anything; any other path is a JPEG save at quality 100 |
| `ImageFile.SaveThenLoadRestoresRows` | src/core/ImageFile.cpp:130-207 | saving and loading the same scanlines rebuilds an image of the same size and colour space with identical rows |
| `ImageFile.SaveThenLoadRestoresPixels` | src/core/ImageFile.cpp:130-207 | after that round trip every pixel holds its saved value |
| `Libjpeg.RunTransfers` | src/core/ImageFile.cpp:130-138 | once the codec is started, transferring rows 0..n-1 in order is accepted and leaves row n due next |
| `Libjpeg.AcceptedTransfersAreInOrder` | src/core/ImageFile.cpp:199-207 | any run of transfers the codec accepts takes the rows in increasing order with none skipped |
| `Libjpeg.SessionReleases` | src/core/ImageFile.cpp:140-145 | open, create, configure, start, n transfers, finish, destroy, close: this sequence is in order and releases everything |

## Findings

| source | as written | input that shows it | evidently intended | confidence | as-written member | corrected member |
|---|---|---|---|---|---|---|
| src/core/Image.h:348-355 | `destSize` is computed after the fields are overwritten, so it always equals `sourceSize`. The buffer is never reallocated, and `sourceSize` bytes go into whatever buffer the target had. | assign a 1x1 grayscale image to a 2x2 RGB image: the buffer stays 16 bytes long while rowSize*height is 4. Assign it to a default image: 4 bytes are copied into an empty buffer. | compare the target's current buffer size with the source's before overwriting, and reallocate when they differ | not executed | `Images.AssignAsWritten` (`Images.AssignAsWrittenKeepsStaleBuffer`, `Images.AssignAsWrittenOverruns`) | `Images.Assign` |
| src/core/ImageFile.cpp:185-186 | the refusal of the Unknown colour space returns false after `fopen` and `jpeg_create_compress`, without `jpeg_destroy_compress` or `fclose` | save an image of Unknown colour space to a path that opens | destroy the codec object and close the file before returning false | not executed | `ImageFile.SaveJpegAsWritten` (`ImageFile.SaveJpegAsWrittenLeaks`) | `ImageFile.SaveJpeg` |

`ImageFile.Save` dispatches to the written `saveJPEG`, as the source does.
`ImageFile.SaveJpegAgreesOffRefusal` shows this choice matters only on the refusal path.

## Left out

- `Image<float>` and `Image<double>`: `create` allocates bytes for any channel type, and
  the copies are sized in bytes while `rowSize` is used as an element stride. Only
  `Image<BYTE>` reaches the file bridge, so only that instantiation is modelled.
- The destructor and `getData`. In a value model, freeing the buffer and handing out
  its address have no counterpart.
- `src/core/ImageOperator.h`: its arithmetic is unimplemented, and the file is not
  well-formed C++. There is no behaviour to model.
- `src/core/ImageFile.h` is declarations only. Its `Format` enum is `ImageFile.Format`.
- `samples/load_save_images.cpp`: command-line and exit-code plumbing.
- Inside the JPEG library: compression, `jpeg_set_defaults`, the meaning of quality,
  `JDCT_FLOAT`, `num_components`, and the standard error manager, which exits the
  process on error. Under that manager, a `jpeg_finish_decompress` before all
  scanlines are read, or an empty image, would stop the process. The model treats
  the library as an abstract stream.
- Real file I/O: `fopen` is an oracle; `fclose` is an event.
- Allocation failure: `new BYTE[n]` in `create`, the constructors and `operator=` may
  throw `std::bad_alloc`, which would leave `create`, the constructors and `load`
  early. The model's allocation always succeeds.
- Image scaling in the library: the decode loop runs to `image_height` while the image
  is created with `output_height`. Without scaling these are equal, and the model uses
  the header's one height for both.
- `Images.PixelOffset`: computed in unbounded integers. The source's unsigned
  arithmetic wraps only for out-of-range coordinates, or for images whose
  `rowSize * height` overflows 32 bits. Every pixel lemma requires `Addressable`, which
  excludes those.
- `Images.Create`: with no source data, the buffer's contents are left to the `alloc`
  oracle, and no contract is stated about them.
- `ImageFile.LoadJpeg`: requires `Decodable`, meaning well-formed scanlines and an image
  whose buffer size does not wrap 32 bits. Beyond that the source writes scanlines past
  the end of its allocation.
- `ImageFile.SaveJpeg`: requires a readable image whose sizes fit 32 bits (`WellSized`).
  When `rowSize * height` wraps, the allocation is shorter than the rows, and the save
  loop reads past the end of the buffer.
- `ImageFile.SaveJpegAsWritten`: the same requirement as `ImageFile.SaveJpeg`, for the
  same reason.
- `ImageFile.Save`: the same requirement, inherited from `ImageFile.SaveJpegAsWritten`.
- `Images.Create`, `Images.Construct` and `Images.Copy`: with source data they require
  that `rowSize * height` does not overflow 32 bits (`BufferFits`). Beyond that the
  allocation wraps while the `size_t` copy does not, so the source writes past the end
  of the new buffer, which has no value to model.
- `Images.AssignAsWritten`, `Images.Assign` and `Images.Copy`: require a readable source,
  meaning a state `create` or `destroy` produces, possibly with the longer buffer the
  written `operator=` leaves. No other kind of image can arise.
- `Libjpeg.Transmit`: the codec is taken as the identity on scanlines and on the colour
  space (the decoder reports the `in_color_space` the encoder was given). JPEG
  compression is lossy, and a real decoder picks `out_color_space` from the file; by
  default it never reports `JCS_EXT_RGBA`. So the round-trip lemmas describe the
  bridge, not the file contents, and the RGBA case of
  `ImageFile.SaveThenLoadRestoresRows` rests on this abstraction.

=== FILE: image_file.dfy ===
/**
 The file bridge `owl::ImageFile` (src/core/ImageFile.cpp): classifying a
 path, dispatching load and save, mapping colour spaces to and from the JPEG
 library's, and moving scanlines between the library and the rows of an
 `Image<BYTE>`, with the file and the codec object acquired and released
 around each transfer. `fopen` succeeding is the oracle `opens`; the
 library is the abstract stream of the Libjpeg module.
 */
module ImageFile {
  import opened Types
  import opened Images
  import opened Libjpeg

  /** `ImageFile::Format`. */
  datatype Format = UnknownFormat | Jpeg

  /** `checkFileExtension`: an empty path has no format; every other path is
      taken to be a JPEG file, whatever its suffix. */
  function CheckFileExtension(path: string): (f: Format)
    ensures f == UnknownFormat <==> |path| == 0
  {
    if |path| == 0 then UnknownFormat else Jpeg
  }

  /** `ImageFile::calculateRowSize`, a copy of the image's own helper. */
  function CalculateRowSize(width: Uint32, bpp: int): (r: Uint32)
    ensures r % 4 == 0
  {
    var bits := Wrap32(width * bpp + 31);
    (bits - bits % 32) / 8
  }

  /** `ImageFile::calculateBpp`: channels times the channel size in bytes
      times 8, in unsigned arithmetic, returned as an `int`. */
  function CalculateBpp(cs: ColorSpace, channelSize: Uint32): (bpp: int)
    ensures NumberOfChannels(cs) * channelSize * 8 < 0x8000_0000 ==>
      bpp == NumberOfChannels(cs) * channelSize * 8
  {
    ToInt32(Wrap32(NumberOfChannels(cs) * channelSize * 8))
  }

  /** The bridge's copies of the layout helpers agree with the image's for
      every input (with one-byte channels for the bits per pixel). */
  lemma HelpersAgreeWithImage(width: Uint32, bpp: int, cs: ColorSpace)
    ensures CalculateRowSize(width, bpp) == Images.CalculateRowSize(width, bpp)
    ensures CalculateBpp(cs, 1) == Images.CalculateBpp(cs)
  {
  }

  /** The colour-space switch of `loadJPEG`: grayscale, RGB (either
      spelling) and RGBA are taken over; every other library colour space
      is refused. An accepted colour space has as many channels as the
      library's scanlines have bytes per pixel. */
  function DecodeColorSpace(j: Jcs): (r: Option<ColorSpace>)
    ensures r.Some? ==> IsSupported(r.value)
    ensures r.Some? ==> PixelBytes(j) == Some(NumberOfChannels(r.value))
  {
    match j
    case JcsGrayscale => Some(Grayscale)
    case JcsRgb | JcsExtRgb => Some(RGB)
    case JcsExtRgba => Some(RGBA)
    case _ => None
  }

  /** Exactly four library colour spaces are accepted on load; the
      reordered (BGR, alpha-first, padded), luminance-chrominance and CMYK
      ones are refused. */
  lemma DecodeAcceptsExactly(j: Jcs)
    ensures DecodeColorSpace(j).Some? <==>
      j == JcsGrayscale || j == JcsRgb || j == JcsExtRgb || j == JcsExtRgba
  {
  }

  /** The colour-space switch of `saveJPEG`: every colour space but Unknown
      has a library counterpart, and loading it back gives the same colour
      space. */
  function EncodeColorSpace(cs: ColorSpace): (r: Option<Jcs>)
    ensures r.Some? <==> IsSupported(cs)
    ensures r.Some? ==> DecodeColorSpace(r.value) == Some(cs)
  {
    match cs
    case Grayscale => Some(JcsGrayscale)
    case RGB => Some(JcsRgb)
    case RGBA => Some(JcsExtRgba)
    case Unknown => None
  }

  /** Every colour space a load accepts can be saved again, and saving
      picks the same library colour space except for the `JCS_EXT_RGB`
      spelling of RGB. */
  lemma DecodeThenEncode(j: Jcs)
    requires DecodeColorSpace(j).Some?
    ensures EncodeColorSpace(DecodeColorSpace(j).value).Some?
    ensures j != JcsExtRgb ==> EncodeColorSpace(DecodeColorSpace(j).value) == Some(j)
  {
  }

  /** A stream the bridge can take over: well formed, and, where its
      colour space is accepted, of a size whose buffer fits 32 bits. */
  predicate Decodable(s: Stream) {
    && WellFormed(s)
    && (DecodeColorSpace(s.header.colorSpace).Some? ==>
          Fits(s.header.width, s.header.height, DecodeColorSpace(s.header.colorSpace).value))
  }

  /** The scanline loop of `loadJPEG` from row k on: scanline k is copied to
      `image(k, 0)`, then row k + 1, up to the last row. Each row from k on
      ends up holding its scanline; earlier rows and all padding are left
      as they were. */
  function ReadScanlines(img: Image, lines: seq<seq<Byte>>, k: nat): (r: Image)
    requires Addressable(img) && |lines| == img.height && k <= img.height
    requires forall j :: 0 <= j < |lines| ==> |lines[j]| == LineLength(img)
    ensures Addressable(r) && r == img.(data := r.data) && |r.data| == |img.data|
    ensures forall j :: k <= j < img.height ==> Row(r, j) == lines[j]
    ensures forall j :: 0 <= j < k ==> Row(r, j) == Row(img, j)
    ensures forall j :: 0 <= j < img.height ==> Padding(r, j) == Padding(img, j)
    ensures forall i :: img.rowSize * img.height <= i < |img.data| ==> r.data[i] == img.data[i]
    decreases img.height - k
  {
    if k == img.height then img
    else ReadScanlines(WriteRow(img, k, lines[k]), lines, k + 1)
  }

  /** What a load leaves behind: its verdict, the target image, and the
      calls it made on the file and the codec object. */
  datatype LoadOutcome = LoadOutcome(ok: bool, image: Image, trace: seq<Event>)

  /** `loadJPEG`. A file that does not open, or a stream in a colour space
      the bridge refuses, leaves the image exactly as it was; otherwise the
      image is recreated to the header's size and colour space and row k
      receives scanline k, for k from 0 up. Every path releases what it
      acquired. */
  function LoadJpeg(image: Image, opens: bool, stream: Stream, alloc: nat -> Byte): (r: LoadOutcome)
    requires Decodable(stream)
    ensures !opens ==> !r.ok && r.image == image && r.trace == []
    ensures r.ok <==> opens && DecodeColorSpace(stream.header.colorSpace).Some?
    ensures !r.ok ==> r.image == image
    ensures Releases(r.trace)
    ensures opens && DecodeColorSpace(stream.header.colorSpace).None? ==> r.trace == Opening + Closing
    ensures r.ok ==>
      && r.image.width == stream.header.width
      && r.image.height == stream.header.height
      && Some(r.image.colorSpace) == DecodeColorSpace(stream.header.colorSpace)
      && Consistent(r.image) && Addressable(r.image)
      && Scanlines(r.image) == stream.scanlines
    ensures r.ok ==> r.trace == Session(stream.header.height)
    ensures r.ok ==> |r.trace| == |Opening| + stream.header.height + |Closing|
    ensures r.ok ==> r.trace[|Opening|..|Opening| + stream.header.height] == Transfers(stream.header.height)
  {
    if !opens then LoadOutcome(false, image, [])
    else
      match DecodeColorSpace(stream.header.colorSpace)
      case None =>
        SessionReleases(0);
        assert Session(0) == Opening + Closing;
        LoadOutcome(false, image, Opening + Closing)
      case Some(cs) =>
        var header := stream.header;
        var created := Create(image, header.width, header.height, cs, None, alloc);
        var filled := ReadScanlines(created, stream.scanlines, 0);
        SessionReleases(header.height);
        LoadOutcome(true, filled, Session(header.height))
  }

  /** `ImageFile::load`: an empty path fails before the codec is reached
      and leaves the image as it was; any other path is loaded as JPEG. */
  function Load(path: string, image: Image, opens: bool, stream: Stream, alloc: nat -> Byte): (r: LoadOutcome)
    requires Decodable(stream)
    ensures |path| == 0 ==> !r.ok && r.image == image && r.trace == []
    ensures |path| > 0 ==> r == LoadJpeg(image, opens, stream, alloc)
  {
    match CheckFileExtension(path)
    case Jpeg => LoadJpeg(image, opens, stream, alloc)
    case UnknownFormat => LoadOutcome(false, image, [])
  }

  /** What a save leaves behind: its verdict, what the encoder was handed,
      and the calls made on the file and the codec object. */
  datatype SaveOutcome = SaveOutcome(ok: bool, output: Option<Encoded>, trace: seq<Event>)

  /** The encoder input a successful save hands over: the image's size and
      channel count, its library colour space, the quality, and its rows,
      top to bottom. */
  predicate EncodesImage(e: Encoded, image: Image, quality: int)
    requires Addressable(image)
  {
    && e.settings.width == image.width
    && e.settings.height == image.height
    && e.settings.components == image.channels
    && Some(e.settings.colorSpace) == EncodeColorSpace(image.colorSpace)
    && DecodeColorSpace(e.settings.colorSpace) == Some(image.colorSpace)
    && e.settings.quality == quality
    && e.scanlines == Scanlines(image)
  }

  /** `saveJPEG` as written: the Unknown colour space is refused after the
      file is opened and the codec object created, and neither is released
      on that path. */
  function SaveJpegAsWritten(image: Image, quality: int, opens: bool): (r: SaveOutcome)
    requires WellSized(image)
    ensures !opens ==> !r.ok && r.output == None && r.trace == []
    ensures r.ok <==> opens && IsSupported(image.colorSpace)
    ensures !r.ok ==> r.output == None
    ensures r.ok ==> r.output.Some? && EncodesImage(r.output.value, image, quality)
    ensures r.ok ==> r.trace == Session(image.height)
    ensures r.ok ==> Releases(r.trace)
    ensures opens && !IsSupported(image.colorSpace) ==> r.trace == [FileOpened, CodecCreated]
    ensures opens && !IsSupported(image.colorSpace) ==>
      Run(Idle, r.trace) == Some(Machine(true, Initial))
  {
    if !opens then SaveOutcome(false, None, [])
    else
      match EncodeColorSpace(image.colorSpace)
      case None => SaveOutcome(false, None, [FileOpened, CodecCreated])
      case Some(j) =>
        var settings := Settings(image.width, image.height, image.channels, j, quality);
        SessionReleases(image.height);
        SaveOutcome(true, Some(Encoded(settings, Scanlines(image))), Session(image.height))
  }

  /** Saving an image of Unknown colour space to a file that opens leaves
      the file open and the codec object alive. */
  lemma SaveJpegAsWrittenLeaks(quality: int, alloc: nat -> Byte)
    ensures var image := Construct(2, 2, Unknown, None, alloc);
      WellSized(image) && !Releases(SaveJpegAsWritten(image, quality, true).trace)
  {
    var image := Construct(2, 2, Unknown, None, alloc);
    assert CalculateRowSize(2, 0) == 0;
    assert Fits(2, 2, Unknown);
  }

  /** `saveJPEG` with the refusal of the Unknown colour space releasing the
      codec object and closing the file: every path releases what it
      acquired. */
  function SaveJpeg(image: Image, quality: int, opens: bool): (r: SaveOutcome)
    requires WellSized(image)
    ensures !opens ==> !r.ok && r.output == None && r.trace == []
    ensures r.ok <==> opens && IsSupported(image.colorSpace)
    ensures !r.ok ==> r.output == None
    ensures r.ok ==> r.output.Some? && EncodesImage(r.output.value, image, quality)
    ensures r.ok ==> r.trace == Session(image.height)
    ensures opens && !IsSupported(image.colorSpace) ==>
      r.trace == [FileOpened, CodecCreated, CodecDestroyed, FileClosed]
    ensures Releases(r.trace)
  {
    if !opens then SaveOutcome(false, None, [])
    else
      match EncodeColorSpace(image.colorSpace)
      case None =>
        var t := [FileOpened, CodecCreated, CodecDestroyed, FileClosed];
        assert Run(Idle, t) == Some(Idle);
        SaveOutcome(false, None, t)
      case Some(j) =>
        var settings := Settings(image.width, image.height, image.channels, j, quality);
        SessionReleases(image.height);
        SaveOutcome(true, Some(Encoded(settings, Scanlines(image))), Session(image.height))
  }

  /** The corrected save differs from the written one only on the refusal
      of the Unknown colour space. */
  lemma SaveJpegAgreesOffRefusal(image: Image, quality: int, opens: bool)
    requires WellSized(image)
    requires !opens || IsSupported(image.colorSpace)
    ensures SaveJpeg(image, quality, opens) == SaveJpegAsWritten(image, quality, opens)
  {
  }

  /** The fixed quality `save` passes to the encoder. */
  const SaveQuality: int := 100

  /** `ImageFile::save`: an empty path fails before the file is opened;
      any other path is saved as JPEG at quality 100. */
  function Save(path: string, image: Image, opens: bool): (r: SaveOutcome)
    requires WellSized(image)
    ensures |path| == 0 ==> !r.ok && r.output == None && r.trace == []
    ensures |path| > 0 ==> r == SaveJpegAsWritten(image, SaveQuality, opens)
    ensures r.ok ==> r.output.Some? && r.output.value.settings.quality == 100
  {
    match CheckFileExtension(path)
    case Jpeg => SaveJpegAsWritten(image, SaveQuality, opens)
    case UnknownFormat => SaveOutcome(false, None, [])
  }

  /** Saving an image and loading the scanlines the encoder was handed
      (the codec taken as the identity on scanlines and colour space)
      rebuilds an image of the same size and colour space with identical
      rows. */
  lemma SaveThenLoadRestoresRows(path: string, src: Image, target: Image, alloc: nat -> Byte)
    requires |path| > 0 && WellSized(src) && IsSupported(src.colorSpace)
    ensures var saved := Save(path, src, true);
      && saved.ok && saved.output.Some?
      && Decodable(Transmit(saved.output.value))
      && var loaded := Load(path, target, true, Transmit(saved.output.value), alloc);
      && loaded.ok
      && loaded.image.width == src.width && loaded.image.height == src.height
      && loaded.image.colorSpace == src.colorSpace
      && Scanlines(loaded.image) == Scanlines(src)
  {
    var saved := Save(path, src, true);
    var stream := Transmit(saved.output.value);
    var cs := DecodeColorSpace(stream.header.colorSpace).value;
    assert cs == src.colorSpace;
    if Derived(src) {
      assert PixelBytes(stream.header.colorSpace) == Some(src.channels);
    } else {
      assert src.height == 0;
    }
    assert WellFormed(stream);
  }

  /** After the save-and-load round trip every pixel holds the value it had
      in the saved image. */
  lemma SaveThenLoadRestoresPixels(path: string, src: Image, target: Image, alloc: nat -> Byte,
                                   row: nat, column: nat)
    requires |path| > 0 && WellSized(src) && IsSupported(src.colorSpace)
    requires row < src.height && column < src.width
    ensures var saved := Save(path, src, true);
      && saved.output.Some?
      && Decodable(Transmit(saved.output.value))
      && var loaded := Load(path, target, true, Transmit(saved.output.value), alloc);
      && loaded.ok && Addressable(loaded.image)
      && loaded.image.height == src.height && loaded.image.width == src.width
      && ReadPixel(loaded.image, row, column) == ReadPixel(src, row, column)
  {
    SaveThenLoadRestoresRows(path, src, target, alloc);
    var saved := Save(path, src, true);
    var loaded := Load(path, target, true, Transmit(saved.output.value), alloc);
    assert Derived(src);
    SameRowsSamePixels(loaded.image, src, row, column);
  }
}

=== FILE: images.dfy ===
/**
 The pixel buffer `owl::Image<BYTE>` (src/core/Image.h): a flat byte buffer of
 `rowSize * height` bytes whose rows are padded to a multiple of 32 bits,
 together with its lifecycle (default state, create, destroy, copy,
 assignment) and its only access path, the pixel offset
 `row * rowSize + column * channels`.
 */
module Images {
  import opened Types

  /** `sizeof(BYTE)`: the channel type modelled here is one byte wide. */
  const ChannelBytes: nat := 1

  /** `Image::calculateBpp`: bits per pixel for a colour space. */
  function CalculateBpp(cs: ColorSpace): (bpp: int)
    ensures bpp % 8 == 0 && 0 <= bpp <= 32
    ensures bpp / 8 == NumberOfChannels(cs)
  {
    NumberOfChannels(cs) * ChannelBytes * 8
  }

  /** `Image::calculateRowSize`: bytes per scanline, padding included, in
      32-bit unsigned arithmetic. `& ~31` clears the low five bits of the
      bit count and `>> 3` turns bits into bytes. */
  function CalculateRowSize(width: Uint32, bpp: int): (r: Uint32)
    ensures r % 4 == 0
  {
    var bits := Wrap32(width * bpp + 31);
    (bits - bits % 32) / 8
  }

  /** Without 32-bit overflow, the row size is the least multiple of four
      bytes that holds `width * bpp` bits: at least that many bits, and less
      than 32 bits more. */
  lemma RowSizeIsPaddedBitLength(width: Uint32, bpp: int)
    requires 0 <= width * bpp && width * bpp + 31 < TwoTo32
    ensures var r := CalculateRowSize(width, bpp);
      && r % 4 == 0
      && 8 * r >= width * bpp
      && 8 * r < width * bpp + 32
      && r == 4 * ((width * bpp + 31) / 32)
  {
  }

  /** No multiple of four bytes smaller than the row size holds the row's
      bits. */
  lemma RowSizeIsLeast(width: Uint32, bpp: int, m: int)
    requires 0 <= width * bpp && width * bpp + 31 < TwoTo32
    requires m % 4 == 0 && 8 * m >= width * bpp
    ensures CalculateRowSize(width, bpp) <= m
  {
    RowSizeIsPaddedBitLength(width, bpp);
  }

  /** For byte channels the row size is the pixel bytes of one row,
      `width * channels`, rounded up to a multiple of four. */
  lemma RowSizeCoversPixels(width: Uint32, cs: ColorSpace)
    requires width * CalculateBpp(cs) + 31 < TwoTo32
    ensures var r := CalculateRowSize(width, CalculateBpp(cs));
      && r % 4 == 0
      && width * NumberOfChannels(cs) <= r < width * NumberOfChannels(cs) + 4
  {
    var n := NumberOfChannels(cs);
    assert width * CalculateBpp(cs) == 8 * (width * n);
    RowSizeIsPaddedBitLength(width, CalculateBpp(cs));
  }

  /** Three concrete row sizes: four RGB pixels fill 12 bytes exactly,
      three RGB pixels take 9 bytes padded to 12, one grayscale pixel is
      padded to 4. */
  lemma RowSizeExamples()
    ensures CalculateRowSize(4, CalculateBpp(RGB)) == 12
    ensures CalculateRowSize(3, CalculateBpp(RGB)) == 12
    ensures CalculateRowSize(1, CalculateBpp(Grayscale)) == 4
  {
  }

  /** Dimensions whose buffer size `rowSize * height` does not overflow 32
      bits, whatever the row size. */
  predicate BufferFits(width: Uint32, height: Uint32, cs: ColorSpace) {
    CalculateRowSize(width, CalculateBpp(cs)) * height < TwoTo32
  }

  /** Dimensions whose row size and buffer size do not overflow 32 bits. */
  predicate Fits(width: Uint32, height: Uint32, cs: ColorSpace) {
    && width * CalculateBpp(cs) + 31 < TwoTo32
    && BufferFits(width, height, cs)
  }

  /** Number of bytes `create` allocates: `mRowSize * mHeight` as an
      `unsigned int`. */
  function BufferSize(width: Uint32, height: Uint32, cs: ColorSpace): (n: Uint32)
    ensures BufferFits(width, height, cs) ==> n == CalculateRowSize(width, CalculateBpp(cs)) * height
  {
    Wrap32(CalculateRowSize(width, CalculateBpp(cs)) * height)
  }

  /** The fields of `owl::Image<BYTE>`; `data` is the owned buffer, empty
      where the source holds a null pointer. The datatype's fields play the
      role of the getters. */
  datatype Image = Image(
    colorSpace: ColorSpace,
    bpp: int,
    width: Uint32,
    height: Uint32,
    rowSize: Uint32,
    channels: int,
    data: seq<Byte>)

  /** Every field derived from the colour space and the width, as
      `create` sets them. */
  predicate Derived(img: Image) {
    && img.channels == NumberOfChannels(img.colorSpace)
    && img.bpp == CalculateBpp(img.colorSpace)
    && img.rowSize == CalculateRowSize(img.width, img.bpp)
  }

  /** Derived fields and a buffer of exactly the allocated size. */
  predicate Consistent(img: Image) {
    Derived(img) && |img.data| == Wrap32(img.rowSize * img.height)
  }

  /** The default-constructed (and destroyed) image: no buffer, all sizes
      zero, colour space RGB. */
  function Default(): (r: Image)
    ensures r.data == [] && Addressable(r) && !Consistent(r)
  {
    Image(RGB, 0, 0, 0, 0, 0, [])
  }

  /** The states the lifecycle operations produce. */
  predicate Valid(img: Image) {
    Consistent(img) || img == Default()
  }

  /** The number of bytes every reader of the buffer takes from it (the
      copy constructor, `operator=`, the save loop): `mRowSize * mHeight`
      as an `unsigned int`. */
  function ReadSize(img: Image): Uint32 {
    Wrap32(img.rowSize * img.height)
  }

  /** The fields of the default image, whatever the buffer. */
  predicate Emptied(img: Image) {
    && img.colorSpace == RGB && img.bpp == 0 && img.channels == 0
    && img.width == 0 && img.height == 0 && img.rowSize == 0
  }

  /** A valid image, or one whose buffer is longer than its fields say, as
      the written `operator=` leaves it: the fields are those of a valid
      image and the buffer holds at least `ReadSize` bytes. */
  predicate Readable(img: Image) {
    && |img.data| >= ReadSize(img)
    && (Derived(img) || Emptied(img))
  }

  /** Every valid image is readable, its buffer holding exactly `ReadSize`
      bytes. */
  lemma ValidIsReadable(img: Image)
    ensures Valid(img) ==> Readable(img) && |img.data| == ReadSize(img)
  {
  }

  /** A buffer that holds `height` rows of `rowSize` bytes, each row
      starting with `width * channels` pixel bytes. */
  predicate Addressable(img: Image) {
    && 0 <= img.channels
    && img.width * img.channels <= img.rowSize
    && |img.data| >= img.rowSize * img.height
  }

  /** A readable image without overflow can be addressed row by row; its
      rows have less than 4 bytes of padding. */
  lemma ReadableFitsIsAddressable(img: Image)
    requires Readable(img) && Fits(img.width, img.height, img.colorSpace)
    ensures Addressable(img)
    ensures img.rowSize < img.width * img.channels + 4
  {
    if Derived(img) {
      RowSizeCoversPixels(img.width, img.colorSpace);
    }
  }

  /** A readable image whose sizes fit 32 bits: the images the file bridge
      reads rows from. */
  predicate WellSized(img: Image)
    ensures WellSized(img) ==> Addressable(img)
  {
    if Readable(img) && Fits(img.width, img.height, img.colorSpace) then
      ReadableFitsIsAddressable(img);
      true
    else
      false
  }

  /** A consistent image whose sizes do not overflow is addressable. */
  lemma ConsistentFitsIsAddressable(img: Image)
    requires Consistent(img)
    ensures Fits(img.width, img.height, img.colorSpace) ==> Addressable(img)
  {
    if Fits(img.width, img.height, img.colorSpace) {
      ValidIsReadable(img);
      ReadableFitsIsAddressable(img);
    }
  }

  /** `Image::destroy`: releases the buffer and zeroes every size, leaving
      the colour space RGB. The result is a valid image but not a consistent
      layout: RGB with zero channels. */
  function Destroy(img: Image): (r: Image)
    ensures Valid(r) && Addressable(r) && !Consistent(r)
    ensures r.data == [] && r.width == 0 && r.height == 0 && r.rowSize == 0
    ensures r.channels == 0 && r.bpp == 0 && r.colorSpace == RGB
  {
    Default()
  }

  /** Destroying twice is destroying once, and a destroyed image equals a
      default-constructed one. */
  lemma DestroyIdempotent(img: Image)
    ensures Destroy(Destroy(img)) == Destroy(img) == Default()
  {
  }

  /** A freshly allocated buffer of n bytes (`new BYTE[n]`): its contents are
      indeterminate, modelled by the oracle `alloc`. */
  function Allocate(n: Uint32, alloc: nat -> Byte): (buffer: seq<Byte>)
    ensures |buffer| == n
  {
    seq(n, i requires 0 <= i < n => alloc(i))
  }

  /** `Image::create`: destroys the current state, then allocates a buffer of
      `rowSize * height` bytes for the new dimensions. With `src` the buffer
      is a copy of its first bytes; without, its contents are whatever the
      allocator hands back, modelled by `alloc`. The copy is sized in
      `size_t`, so with source data the buffer size must not wrap 32 bits:
      the allocation would be shorter than the copy. */
  function Create(img: Image, width: Uint32, height: Uint32, cs: ColorSpace,
                  src: Option<seq<Byte>>, alloc: nat -> Byte): (r: Image)
    requires src.Some? ==> BufferFits(width, height, cs) && |src.value| >= BufferSize(width, height, cs)
    ensures Consistent(r) && Valid(r)
    ensures r.width == width && r.height == height && r.colorSpace == cs
    ensures r.channels == NumberOfChannels(cs) && r.bpp == 8 * r.channels
    ensures |r.data| == BufferSize(width, height, cs)
    ensures Fits(width, height, cs) ==> Addressable(r) && |r.data| == r.rowSize * r.height
    ensures src.Some? ==> r.data == src.value[..|r.data|]
  {
    var empty := Destroy(img);
    var bpp := CalculateBpp(cs);
    var rowSize := CalculateRowSize(width, bpp);
    var size := Wrap32(rowSize * height);
    var data := match src
      case Some(bytes) => bytes[..size]
      case None => Allocate(size, alloc);
    var r := empty.(colorSpace := cs, bpp := bpp, width := width, height := height,
                    rowSize := rowSize, channels := NumberOfChannels(cs), data := data);
    ConsistentFitsIsAddressable(r);
    r
  }

  /** The prior state has no influence on `create`. */
  lemma CreateDiscardsPrior(a: Image, b: Image, width: Uint32, height: Uint32, cs: ColorSpace,
                            src: Option<seq<Byte>>, alloc: nat -> Byte)
    requires src.Some? ==> BufferFits(width, height, cs) && |src.value| >= BufferSize(width, height, cs)
    ensures Create(a, width, height, cs, src, alloc) == Create(b, width, height, cs, src, alloc)
  {
  }

  /** Creating twice with different dimensions yields exactly the layout of
      the second call. */
  lemma RecreateFollowsNewDimensions(img: Image, w1: Uint32, h1: Uint32, cs1: ColorSpace,
                                     w2: Uint32, h2: Uint32, cs2: ColorSpace, alloc: nat -> Byte)
    requires Fits(w2, h2, cs2)
    ensures var r := Create(Destroy(Create(img, w1, h1, cs1, None, alloc)), w2, h2, cs2, None, alloc);
      && r.width == w2 && r.height == h2
      && r.rowSize == CalculateRowSize(w2, CalculateBpp(cs2))
      && |r.data| == r.rowSize * h2
  {
  }

  /** The four-argument constructor: `create` applied to a default image. */
  function Construct(width: Uint32, height: Uint32, cs: ColorSpace,
                     src: Option<seq<Byte>>, alloc: nat -> Byte): (r: Image)
    requires src.Some? ==> BufferFits(width, height, cs) && |src.value| >= BufferSize(width, height, cs)
    ensures forall img :: r == Create(img, width, height, cs, src, alloc)
  {
    Create(Default(), width, height, cs, src, alloc)
  }

  /** The copy constructor: the four-argument constructor on the source's
      width, height, colour space and buffer. The copy takes the first
      `ReadSize` bytes of the source's buffer and keeps its dimensions; a
      consistent source is copied exactly. */
  function Copy(src: Image, alloc: nat -> Byte): (r: Image)
    requires Readable(src) && BufferFits(src.width, src.height, src.colorSpace)
    ensures Consistent(r)
    ensures r.width == src.width && r.height == src.height && r.colorSpace == src.colorSpace
    ensures r.rowSize == src.rowSize && r.data == src.data[..ReadSize(src)]
    ensures Valid(src) ==> r.data == src.data
    ensures Consistent(src) ==> r == src
  {
    var r := Construct(src.width, src.height, src.colorSpace, Some(src.data), alloc);
    ValidIsReadable(src);
    r
  }

  /** The default image keeps RGB with zero channels, so its copy is not
      equal to it: the copy recomputes three channels and 24 bits per
      pixel. */
  lemma CopyOfDefaultGainsChannels(alloc: nat -> Byte)
    ensures Copy(Default(), alloc).channels == 3 && Default().channels == 0
    ensures Copy(Default(), alloc) != Default()
  {
  }

  /** `operator()`: offset of the first channel of pixel (row, column).
      No bounds check: callers keep row < height and column < width. */
  function PixelOffset(img: Image, row: nat, column: nat): int {
    row * img.rowSize + column * img.channels
  }

  /** `a <= b` scales by a non-negative factor. */
  lemma MulMonotonic(a: int, b: int, c: int)
    requires a <= b && 0 <= c
    ensures a * c <= b * c
  {
    assert b * c - a * c == (b - a) * c;
  }

  /** Row k occupies `[k * rowSize, (k + 1) * rowSize)`, inside the buffer. */
  lemma RowInBuffer(img: Image, k: nat)
    requires Addressable(img) && k < img.height
    ensures 0 <= k * img.rowSize
    ensures k * img.rowSize + img.rowSize <= |img.data|
  {
    MulMonotonic(k + 1, img.height, img.rowSize);
  }

  /** An earlier row ends before a later one starts. */
  lemma RowsOrdered(img: Image, j: nat, k: nat)
    requires j < k
    ensures j * img.rowSize + img.rowSize <= k * img.rowSize
  {
    MulMonotonic(j + 1, k, img.rowSize);
  }

  /** The slot of an in-bounds pixel lies in its own row's pixel bytes: it
      never reaches the padding or the next row. */
  lemma PixelSlotInRow(img: Image, row: nat, column: nat)
    requires Addressable(img) && row < img.height && column < img.width
    ensures var off := PixelOffset(img, row, column);
      && row * img.rowSize <= off
      && off + img.channels <= row * img.rowSize + img.width * img.channels
      && row * img.rowSize + img.rowSize <= |img.data|
    ensures 0 <= PixelOffset(img, row, column)
    ensures PixelOffset(img, row, column) + img.channels <= |img.data|
  {
    RowInBuffer(img, row);
    MulMonotonic(column + 1, img.width, img.channels);
    assert 0 <= column * img.channels by { MulMonotonic(0, column, img.channels); }
  }

  /** Distinct in-bounds pixels have disjoint slots. */
  lemma PixelSlotsDisjoint(img: Image, r1: nat, c1: nat, r2: nat, c2: nat)
    requires Addressable(img)
    requires r1 < img.height && c1 < img.width && r2 < img.height && c2 < img.width
    requires (r1, c1) != (r2, c2)
    ensures var o1 := PixelOffset(img, r1, c1);
      var o2 := PixelOffset(img, r2, c2);
      o1 + img.channels <= o2 || o2 + img.channels <= o1
  {
    PixelSlotInRow(img, r1, c1);
    PixelSlotInRow(img, r2, c2);
    if r1 < r2 {
      RowsOrdered(img, r1, r2);
    } else if r2 < r1 {
      RowsOrdered(img, r2, r1);
    } else if c1 < c2 {
      MulMonotonic(c1 + 1, c2, img.channels);
    } else {
      MulMonotonic(c2 + 1, c1, img.channels);
    }
  }

  /** The channel values of pixel (row, column). */
  function ReadPixel(img: Image, row: nat, column: nat): (v: seq<Byte>)
    requires Addressable(img) && row < img.height && column < img.width
    ensures |v| == img.channels
  {
    PixelSlotInRow(img, row, column);
    var off := PixelOffset(img, row, column);
    img.data[off..off + img.channels]
  }

  /** `bytes` copied over `data` from `offset` on (a `memcpy` into the
      buffer). */
  function Store(data: seq<Byte>, offset: nat, bytes: seq<Byte>): (r: seq<Byte>)
    requires offset + |bytes| <= |data|
    ensures |r| == |data|
    ensures r[offset..offset + |bytes|] == bytes
    ensures forall i :: 0 <= i < |data| && !(offset <= i < offset + |bytes|) ==> r[i] == data[i]
  {
    data[..offset] + bytes + data[offset + |bytes|..]
  }

  /** Slices that miss the stored range are unchanged by `Store`. */
  lemma StoreFrame(data: seq<Byte>, offset: nat, bytes: seq<Byte>, lo: nat, hi: nat)
    requires offset + |bytes| <= |data|
    requires lo <= hi <= |data|
    requires hi <= offset || offset + |bytes| <= lo
    ensures Store(data, offset, bytes)[lo..hi] == data[lo..hi]
  {
    var r := Store(data, offset, bytes);
    assert forall i :: 0 <= i < hi - lo ==> r[lo..hi][i] == r[lo + i];
  }

  /** Writing the channel values of pixel (row, column) through
      `operator()`: reading the pixel back gives those values, and every
      other byte of the buffer, padding included, keeps its value. */
  function WritePixel(img: Image, row: nat, column: nat, v: seq<Byte>): (r: Image)
    requires Addressable(img) && row < img.height && column < img.width
    requires |v| == img.channels
    ensures Addressable(r) && r == img.(data := r.data) && |r.data| == |img.data|
    ensures ReadPixel(r, row, column) == v
    ensures forall i :: (0 <= i < |img.data| && !(PixelOffset(img, row, column) <= i <
      PixelOffset(img, row, column) + img.channels)) ==> r.data[i] == img.data[i]
  {
    PixelSlotInRow(img, row, column);
    var r := img.(data := Store(img.data, PixelOffset(img, row, column), v));
    assert |r.data| == |img.data|;
    r
  }

  /** Writing one pixel leaves every other pixel's values as they were. */
  lemma WritePixelLeavesOthers(img: Image, row: nat, column: nat, v: seq<Byte>, r2: nat, c2: nat)
    requires Addressable(img) && row < img.height && column < img.width
    requires |v| == img.channels
    requires r2 < img.height && c2 < img.width && (r2, c2) != (row, column)
    ensures ReadPixel(WritePixel(img, row, column, v), r2, c2) == ReadPixel(img, r2, c2)
  {
    PixelSlotsDisjoint(img, row, column, r2, c2);
    PixelSlotInRow(img, r2, c2);
    PixelSlotInRow(img, row, column);
    var w := WritePixel(img, row, column, v);
    var off := PixelOffset(img, row, column);
    var o := PixelOffset(img, r2, c2);
    assert w.data == Store(img.data, off, v);
    assert PixelOffset(w, r2, c2) == o;
    assert ReadPixel(w, r2, c2) == w.data[o..o + img.channels];
    assert ReadPixel(img, r2, c2) == img.data[o..o + img.channels];
    StoreFrame(img.data, off, v, o, o + img.channels);
  }

  /** Pixel bytes in one row: `width * channels`. */
  function LineLength(img: Image): int {
    img.width * img.channels
  }

  /** The pixel bytes of row k: the `width * channels` bytes from
      `operator()(k, 0)` on, which is what a scanline transfer reads or
      writes. */
  function Row(img: Image, k: nat): (line: seq<Byte>)
    requires Addressable(img) && k < img.height
    ensures |line| == LineLength(img)
  {
    RowInBuffer(img, k);
    img.data[k * img.rowSize..k * img.rowSize + LineLength(img)]
  }

  /** The padding bytes that end row k. */
  function Padding(img: Image, k: nat): (pad: seq<Byte>)
    requires Addressable(img) && k < img.height
    ensures |pad| == img.rowSize - LineLength(img)
  {
    RowInBuffer(img, k);
    img.data[k * img.rowSize + LineLength(img)..k * img.rowSize + img.rowSize]
  }

  /** The rows of an image, top to bottom. */
  function Scanlines(img: Image): (lines: seq<seq<Byte>>)
    requires Addressable(img)
    ensures |lines| == img.height
    ensures forall k :: 0 <= k < |lines| ==> lines[k] == Row(img, k)
  {
    seq(img.height, k requires 0 <= k < img.height => Row(img, k))
  }

  /** The slot of pixel (row, column) is the `channels` bytes at
      `column * channels` within the pixel bytes of its row. */
  lemma PixelWithinRow(img: Image, row: nat, column: nat)
    requires Addressable(img) && row < img.height && column < img.width
    ensures 0 <= column * img.channels
    ensures column * img.channels + img.channels <= LineLength(img)
    ensures ReadPixel(img, row, column)
      == Row(img, row)[column * img.channels..column * img.channels + img.channels]
  {
    PixelSlotInRow(img, row, column);
    MulMonotonic(0, column, img.channels);
    var s := row * img.rowSize;
    var c := column * img.channels;
    var line := Row(img, row);
    assert line == img.data[s..s + LineLength(img)];
    assert line[c..c + img.channels] == img.data[s + c..s + c + img.channels];
  }

  /** Two images with the same width, channel count and rows hold the same
      values at every pixel. */
  lemma SameRowsSamePixels(a: Image, b: Image, row: nat, column: nat)
    requires Addressable(a) && Addressable(b)
    requires a.width == b.width && a.height == b.height && a.channels == b.channels
    requires Scanlines(a) == Scanlines(b)
    requires row < a.height && column < a.width
    ensures ReadPixel(a, row, column) == ReadPixel(b, row, column)
  {
    PixelWithinRow(a, row, column);
    PixelWithinRow(b, row, column);
    assert Row(a, row) == Scanlines(a)[row] == Scanlines(b)[row] == Row(b, row);
  }

  /** Copying a scanline to `operator()(k, 0)`: row k becomes the line,
      every other row and every row's padding are unchanged. */
  function WriteRow(img: Image, k: nat, line: seq<Byte>): (r: Image)
    requires Addressable(img) && k < img.height && |line| == LineLength(img)
    ensures Addressable(r) && r == img.(data := r.data) && |r.data| == |img.data|
    ensures forall i :: img.rowSize * img.height <= i < |img.data| ==> r.data[i] == img.data[i]
    ensures Row(r, k) == line
    ensures forall j :: 0 <= j < img.height && j != k ==> Row(r, j) == Row(img, j)
    ensures forall j :: 0 <= j < img.height ==> Padding(r, j) == Padding(img, j)
  {
    RowStoreFrames(img, k, line);
    img.(data := Store(img.data, PixelOffset(img, k, 0), line))
  }

  /** The frame of a row copy: row k becomes the line; every other row,
      every padding and the bytes past the last row keep their values. */
  lemma RowStoreFrames(img: Image, k: nat, line: seq<Byte>)
    requires Addressable(img) && k < img.height && |line| == LineLength(img)
    ensures PixelOffset(img, k, 0) + |line| <= |img.data|
    ensures var r := img.(data := Store(img.data, PixelOffset(img, k, 0), line));
      && Addressable(r) && |r.data| == |img.data|
      && (forall i :: img.rowSize * img.height <= i < |img.data| ==> r.data[i] == img.data[i])
      && Row(r, k) == line
      && (forall j :: 0 <= j < img.height && j != k ==> Row(r, j) == Row(img, j))
      && (forall j :: 0 <= j < img.height ==> Padding(r, j) == Padding(img, j))
  {
    RowInBuffer(img, k);
    var r := img.(data := Store(img.data, PixelOffset(img, k, 0), line));
    assert Addressable(r);
    assert Row(r, k) == line;
    assert forall j :: 0 <= j < img.height && j != k ==> Row(r, j) == Row(img, j) by {
      forall j | 0 <= j < img.height && j != k
        ensures Row(r, j) == Row(img, j)
      {
        RowStoreFrame(img, k, line, j);
      }
    }
    assert forall j :: 0 <= j < img.height ==> Padding(r, j) == Padding(img, j) by {
      forall j | 0 <= j < img.height
        ensures Padding(r, j) == Padding(img, j)
      {
        RowStoreFrame(img, k, line, j);
      }
    }
    assert forall i :: img.rowSize * img.height <= i < |img.data| ==> r.data[i] == img.data[i] by {
      RowStoreKeepsTail(img, k, line);
    }
  }


  /** Copying a scanline to row k leaves row j, when it is another row, and
      the padding of row j as they were. */
  lemma RowStoreFrame(img: Image, k: nat, line: seq<Byte>, j: nat)
    requires Addressable(img) && k < img.height && |line| == LineLength(img) && j < img.height
    ensures PixelOffset(img, k, 0) + |line| <= |img.data|
    ensures var r := img.(data := Store(img.data, PixelOffset(img, k, 0), line));
      && Addressable(r)
      && (j != k ==> Row(r, j) == Row(img, j))
      && Padding(r, j) == Padding(img, j)
  {
    RowInBuffer(img, k);
    RowInBuffer(img, j);
    var off := PixelOffset(img, k, 0);
    if j < k {
      RowsOrdered(img, j, k);
    } else if k < j {
      RowsOrdered(img, k, j);
    }
    var s := j * img.rowSize;
    if j != k {
      StoreFrame(img.data, off, line, s, s + LineLength(img));
    }
    StoreFrame(img.data, off, line, s + LineLength(img), s + img.rowSize);
  }

  /** Copying a scanline to row k leaves the bytes past the last row, which
      a stale buffer has, as they were. */
  lemma RowStoreKeepsTail(img: Image, k: nat, line: seq<Byte>)
    requires Addressable(img) && k < img.height && |line| == LineLength(img)
    ensures PixelOffset(img, k, 0) + |line| <= img.rowSize * img.height <= |img.data|
    ensures forall i :: img.rowSize * img.height <= i < |img.data| ==>
      Store(img.data, PixelOffset(img, k, 0), line)[i] == img.data[i]
  {
    MulMonotonic(k + 1, img.height, img.rowSize);
    assert img.height * img.rowSize == img.rowSize * img.height;
  }

  /** Result of the assignment operator: the target, or an overrun of the
      target's buffer by the copy. */
  datatype Assignment = Assigned(image: Image) | Overrun

  /** `operator=` as written: the fields are overwritten before `destSize`
      is computed, so `sourceSize != destSize` never holds, the target's
      buffer is never reallocated, and `sourceSize` bytes are copied into
      it whatever its length. */
  function AssignAsWritten(dst: Image, src: Image, alloc: nat -> Byte): (r: Assignment)
    requires Readable(src)
    ensures r.Overrun? <==> |dst.data| < ReadSize(src)
    ensures Valid(src) ==> (r.Overrun? <==> |dst.data| < |src.data|)
    ensures r.Assigned? ==> r.image.(data := src.data) == src
    ensures r.Assigned? ==> |r.image.data| == |dst.data|
    ensures r.Assigned? ==> r.image.data[..ReadSize(src)] == src.data[..ReadSize(src)]
    ensures r.Assigned? ==> r.image.data[ReadSize(src)..] == dst.data[ReadSize(src)..]
    ensures r.Assigned? && Valid(src) ==> r.image.data[..|src.data|] == src.data
    ensures r.Assigned? ==> Readable(r.image)
  {
    var updated := dst.(width := src.width, height := src.height, rowSize := src.rowSize,
                        channels := src.channels, colorSpace := src.colorSpace, bpp := src.bpp);
    var sourceSize := Wrap32(src.rowSize * src.height);
    var destSize := Wrap32(updated.rowSize * updated.height);
    var buffer := if sourceSize != destSize then Allocate(sourceSize, alloc) else dst.data;
    if |buffer| < sourceSize then Overrun
    else
      var r := updated.(data := src.data[..sourceSize] + buffer[sourceSize..]);
      assert r.data[..sourceSize] == src.data[..sourceSize];
      ValidIsReadable(src);
      Assigned(r)
  }

  /** Assigning a small image to a larger one keeps the larger buffer, so
      the result's buffer length is no longer `rowSize * height`. */
  lemma AssignAsWrittenKeepsStaleBuffer(alloc: nat -> Byte)
    ensures var dst := Construct(2, 2, RGB, None, alloc);
      var src := Construct(1, 1, Grayscale, None, alloc);
      var r := AssignAsWritten(dst, src, alloc);
      && r.Assigned?
      && |r.image.data| == 16
      && r.image.rowSize * r.image.height == 4
      && !Valid(r.image) && Readable(r.image)
  {
    var dst := Construct(2, 2, RGB, None, alloc);
    var src := Construct(1, 1, Grayscale, None, alloc);
    assert CalculateRowSize(2, 24) == 8;
    assert CalculateRowSize(1, 8) == 4;
    assert |dst.data| == 16 && |src.data| == 4;
  }

  /** Assigning a non-empty image to a default one copies into a buffer too
      small for it. */
  lemma AssignAsWrittenOverruns(alloc: nat -> Byte)
    ensures AssignAsWritten(Default(), Construct(1, 1, Grayscale, None, alloc), alloc).Overrun?
  {
    assert CalculateRowSize(1, 8) == 4;
  }

  /** `operator=` with the reallocation test made on the size of the buffer
      the target holds, before anything is overwritten: the target becomes
      an exact, independent copy of the source, or of the first `ReadSize`
      bytes of a source with a longer buffer. */
  function Assign(dst: Image, src: Image, alloc: nat -> Byte): (r: Image)
    requires Readable(src)
    ensures Valid(r)
    ensures r.(data := src.data) == src && r.data == src.data[..ReadSize(src)]
    ensures Valid(src) ==> r == src
  {
    var sourceSize := Wrap32(src.rowSize * src.height);
    var destSize := |dst.data|;
    var buffer := if sourceSize != destSize then Allocate(sourceSize, alloc) else dst.data;
    assert |buffer| == sourceSize;
    assert src.data[..sourceSize] + buffer[sourceSize..] == src.data[..sourceSize];
    var r := Image(src.colorSpace, src.bpp, src.width, src.height, src.rowSize, src.channels,
                   src.data[..sourceSize] + buffer[sourceSize..]);
    ValidIsReadable(src);
    r
  }
}

=== FILE: libjpeg.dfy ===
/**
 The JPEG library as the image-file bridge sees it: its colour-space
 enumeration, a decoded stream as a header plus scanlines, the encoder's
 settings, and the life cycle of a codec object and its file as a small
 state machine over the events the bridge causes. The compression itself
 is not modelled.
 */
module Libjpeg {
  import opened Types

  /** `J_COLOR_SPACE` of libjpeg-turbo. */
  datatype Jcs =
    | JcsUnknown | JcsGrayscale | JcsRgb | JcsYCbCr | JcsCmyk | JcsYcck
    | JcsExtRgb | JcsExtRgbx | JcsExtBgr | JcsExtBgrx | JcsExtXbgr | JcsExtXrgb
    | JcsExtRgba | JcsExtBgra | JcsExtAbgr | JcsExtArgb | JcsRgb565

  /** Bytes per pixel of an output scanline in a colour space; for
      `JCS_UNKNOWN` the count comes from the stream itself. */
  function PixelBytes(j: Jcs): Option<nat> {
    match j
    case JcsUnknown => None
    case JcsGrayscale => Some(1)
    case JcsRgb | JcsYCbCr | JcsExtRgb | JcsExtBgr => Some(3)
    case JcsRgb565 => Some(2)
    case _ => Some(4)
  }

  /** What the decompressor reports after `jpeg_start_decompress`:
      `output_width`, `output_height`, `out_color_space`. */
  datatype Header = Header(width: Uint32, height: Uint32, colorSpace: Jcs)

  /** A decoded stream: its header and the scanlines `jpeg_read_scanlines`
      hands out, top to bottom. */
  datatype Stream = Stream(header: Header, scanlines: seq<seq<Byte>>)

  /** The library's promise about a stream: one scanline per row, each
      `width` pixels of the colour space's size. */
  predicate WellFormed(s: Stream) {
    && |s.scanlines| == s.header.height
    && forall k :: 0 <= k < |s.scanlines| ==>
         (PixelBytes(s.header.colorSpace).Some? ==>
            |s.scanlines[k]| == s.header.width * PixelBytes(s.header.colorSpace).value)
  }

  /** The encoder fields the bridge sets: `image_width`, `image_height`,
      `input_components`, `in_color_space`, and the quality. */
  datatype Settings = Settings(width: Uint32, height: Uint32, components: int,
                               colorSpace: Jcs, quality: int)

  /** What the encoder is handed: its settings and the scanlines given to
      `jpeg_write_scanlines`, in order. */
  datatype Encoded = Encoded(settings: Settings, scanlines: seq<seq<Byte>>)

  /** A codec that gives back exactly what it was handed: the scanlines
      (the compression loss abstracted away) and the colour space (a real
      decoder chooses its output colour space from the file). The stream a
      decoder reads from an encoder's output. */
  function Transmit(e: Encoded): (s: Stream)
    ensures s.scanlines == e.scanlines
    ensures s.header.width == e.settings.width && s.header.height == e.settings.height
    ensures s.header.colorSpace == e.settings.colorSpace
  {
    Stream(Header(e.settings.width, e.settings.height, e.settings.colorSpace), e.scanlines)
  }

  /** The calls the bridge makes on the file and the codec object: `fopen`,
      `fclose`, `jpeg_create_*`, the header read or parameter setting,
      `jpeg_start_*`, one scanline transfer, `jpeg_finish_*` and
      `jpeg_destroy_*`. */
  datatype Event =
    | FileOpened | FileClosed
    | CodecCreated | CodecConfigured | CodecStarted
    | Scanline(row: nat)
    | CodecFinished | CodecDestroyed

  /** Where the codec object is in its life: absent, created, configured,
      transferring (with the next scanline due), finished. */
  datatype Phase = Absent | Initial | Ready | Transferring(next: nat) | Done

  /** The resources of one load or save. */
  datatype Machine = Machine(fileOpen: bool, phase: Phase)

  /** Nothing open, no codec object. */
  const Idle: Machine := Machine(false, Absent)

  /** One event, or `None` where the event is out of order. Scanlines are
      transferred strictly in row order; destroying the codec object is
      allowed in any phase. */
  function Step(m: Machine, e: Event): Option<Machine> {
    match e
    case FileOpened => if m.fileOpen then None else Some(m.(fileOpen := true))
    case FileClosed => if m.fileOpen then Some(m.(fileOpen := false)) else None
    case CodecCreated => if m.phase == Absent then Some(m.(phase := Initial)) else None
    case CodecConfigured => if m.phase == Initial then Some(m.(phase := Ready)) else None
    case CodecStarted => if m.phase == Ready then Some(m.(phase := Transferring(0))) else None
    case Scanline(k) =>
      if m.phase == Transferring(k) then Some(m.(phase := Transferring(k + 1))) else None
    case CodecFinished => if m.phase.Transferring? then Some(m.(phase := Done)) else None
    case CodecDestroyed => if m.phase != Absent then Some(m.(phase := Absent)) else None
  }

  /** Replays a trace of events. */
  function Run(m: Machine, trace: seq<Event>): Option<Machine>
    decreases |trace|
  {
    if trace == [] then Some(m)
    else match Step(m, trace[0])
      case None => None
      case Some(next) => Run(next, trace[1..])
  }

  /** A trace in order that ends with the file closed and no codec object:
      every resource acquired is released. */
  predicate Releases(trace: seq<Event>) {
    Run(Idle, trace) == Some(Idle)
  }

  /** Transfers of rows `0 .. n-1`, in increasing order. */
  function Transfers(n: nat): (t: seq<Event>)
    ensures |t| == n
  {
    seq(n, k requires 0 <= k < n => Scanline(k))
  }

  /** Replaying a concatenation replays its parts one after the other. */
  lemma {:induction false} RunAppend(m: Machine, a: seq<Event>, b: seq<Event>)
    ensures Run(m, a + b) == (match Run(m, a) case None => None case Some(m') => Run(m', b))
    decreases |a|
  {
    if a == [] {
      assert a + b == b;
    } else {
      assert (a + b)[0] == a[0];
      assert (a + b)[1..] == a[1..] + b;
      match Step(m, a[0])
      case None =>
      case Some(next) => RunAppend(next, a[1..], b);
    }
  }

  /** Transferring rows `0 .. n-1` in order is accepted once the codec has
      started, and leaves row n due next. */
  lemma {:induction false} RunTransfers(fileOpen: bool, n: nat)
    ensures Run(Machine(fileOpen, Transferring(0)), Transfers(n)) == Some(Machine(fileOpen, Transferring(n)))
  {
    if n > 0 {
      assert Transfers(n) == Transfers(n - 1) + [Scanline(n - 1)];
      RunTransfers(fileOpen, n - 1);
      RunAppend(Machine(fileOpen, Transferring(0)), Transfers(n - 1), [Scanline(n - 1)]);
    }
  }

  /** Conversely, a run of transfers the machine accepts from row `start`
      on takes the rows in increasing order with none skipped. */
  lemma {:induction false} AcceptedTransfersAreInOrder(m: Machine, start: nat, t: seq<Event>)
    requires m.phase == Transferring(start)
    requires forall i :: 0 <= i < |t| ==> t[i].Scanline?
    requires Run(m, t).Some?
    ensures forall i :: 0 <= i < |t| ==> t[i] == Scanline(start + i)
    decreases |t|
  {
    if t != [] {
      assert t[0].Scanline?;
      var next := Step(m, t[0]).value;
      assert t[0] == Scanline(start);
      AcceptedTransfersAreInOrder(next, start + 1, t[1..]);
      forall i | 0 < i < |t|
        ensures t[i] == Scanline(start + i)
      {
        assert t[1..][i - 1] == t[i];
      }
    }
  }

  /** Opening the file, creating the codec object, reading the header or
      setting the parameters, and starting the codec. */
  const Opening: seq<Event> := [FileOpened, CodecCreated, CodecConfigured, CodecStarted]

  /** Finishing the codec, destroying it, and closing the file. */
  const Closing: seq<Event> := [CodecFinished, CodecDestroyed, FileClosed]

  /** A complete load or save of n rows. */
  function Session(n: nat): (t: seq<Event>)
    ensures |t| == |Opening| + n + |Closing|
    ensures t[|Opening|..|Opening| + n] == Transfers(n)
  {
    Opening + Transfers(n) + Closing
  }

  /** A complete session is in order and releases the file and the codec
      object. */
  lemma SessionReleases(n: nat)
    ensures Releases(Session(n))
  {
    var started := Machine(true, Transferring(0));
    assert Run(Idle, Opening) == Some(started);
    RunTransfers(true, n);
    RunAppend(Idle, Opening, Transfers(n));
    RunAppend(Idle, Opening + Transfers(n), Closing);
    assert Run(Machine(true, Transferring(n)), Closing) == Some(Idle);
  }
}

=== FILE: types.dfy ===
/**
 Colour spaces, channel counts and the fixed-width integers of the image
 library (src/core/Types.h).
 */
module Types {

  /** One 8-bit colour channel sample (`owl::BYTE`, a `uint8_t`). */
  newtype Byte = b: int | 0 <= b < 256

  /** 2^32: the modulus of C++ `unsigned int` arithmetic. */
  const TwoTo32: nat := 0x1_0000_0000

  /** An optional value: a C++ pointer that may be null, or a mapping that
      may have no answer. */
  datatype Option<+T> = None | Some(value: T)

  /** A value of C++ `unsigned int`. */
  type Uint32 = x: nat | x < TwoTo32

  /** Conversion of an integer to `unsigned int`: arithmetic modulo 2^32. */
  function Wrap32(x: int): (r: Uint32)
    ensures 0 <= x < TwoTo32 ==> r == x
    ensures (r - x) % TwoTo32 == 0
  {
    x % TwoTo32
  }

  /** Conversion of an `unsigned int` to a two's-complement `int`. */
  function ToInt32(x: Uint32): (r: int)
    ensures -0x8000_0000 <= r < 0x8000_0000
    ensures Wrap32(r) == x
  {
    if x < 0x8000_0000 then x else x - TwoTo32
  }

  /** `owl::ColorSpace::Type`. */
  datatype ColorSpace = Unknown | Grayscale | RGB | RGBA

  /** The colour spaces that describe an actual pixel layout. */
  predicate IsSupported(cs: ColorSpace) {
    cs != Unknown
  }

  /** `ColorSpace::calculateNumberOfChannels`: channels per pixel; the
      default branch (Unknown) has none. */
  function NumberOfChannels(cs: ColorSpace): (n: nat)
    ensures n in {0, 1, 3, 4}
    ensures n == 0 <==> !IsSupported(cs)
    ensures cs == Grayscale <==> n == 1
    ensures cs == RGBA <==> n == 4
  {
    match cs
    case RGB => 3
    case RGBA => 4
    case Grayscale => 1
    case Unknown => 0
  }

  /** The channel count identifies the colour space: no two colour spaces
      share a count. */
  lemma ChannelsIdentifyColorSpace(a: ColorSpace, b: ColorSpace)
    ensures NumberOfChannels(a) == NumberOfChannels(b) <==> a == b
  {
  }
}
